=== FILE: README.md ===
# Verified model of the Quant-Strategy-Research backtester

This Dafny project models the rule-based core of the Quant Strategy Research repository:

- **Backtest engine** (`BacktestAgent`):
  - the RSI formula;
  - the daily trading loop, a flat/long state machine over cleaned indicator rows;
  - the forced liquidation of a position still open after the last row;
  - the statistics taken from the trade log and the equity curve: round-trip pairing, hit ratio / win rate, average return and maximum drawdown.
- **Strategy generator helpers** (`StrategyGenAgent`): cutting the JSON out of a fenced code block, and listing missing top-level fields.
- **Explanation flags** (`ExplainabilityAgent`): the risk warnings and the overfitting flag.
- **Run store** (`StrategyRunStore`): sequential ids, append, list and lookup by id.

Every operation is a pure function over immutable datatypes. The trading loop is the left fold
`Simulation.Run` of `Simulation.Step` over the rows. Prices and money are unbounded reals. An
exception in the source is a `Failure` value of `Wrappers.Result`. A missing dictionary key or a
pandas NaN is `Wrappers.Option.None`.

Modules, one per file: `Wrappers`, `Indicators`, `Simulation`, `Metrics`, `Backtest`,
`StrategyGen`, `Explain`, `RunStore`.

Three behaviours of `agents/backtest_agent.py` worth knowing:

- The equity curve always gets a final point holding the final cash, dated like the last row. This happens whether or not a position was force-closed. The curve therefore has exactly one point more than there are rows.
- A normal trade records the marked equity of its bar *before* the trade. The forced liquidation SELL records the cash *after* the sale.
- An empty row sequence is a failure, because `df.index[-1]` raises. It is `Simulation.SimError.NoData`.

## Model

| member | source | states |
|---|---|---|
| Indicators.RsiFromAverages | agents/backtest_agent.py:44-45 | RSI lies in [0,100]. It is undefined (NaN) exactly when the average gain and the average loss are both 0. It saturates at 100 when the average loss is 0 and the average gain is positive. |
| Indicators.RsiClosedForm | agents/backtest_agent.py:44-45 | `100 - 100/(1 + gain/loss)` equals `100·gain/(gain+loss)` whenever there was any movement. |
| Indicators.RsiAboveMidpoint | agents/backtest_agent.py:44-45 | RSI exceeds 50 exactly when the average gain exceeds the average loss. |
| Indicators.ComputeRsi | agents/backtest_agent.py:38-45 | There is one value per close. The first `period` values are undefined. Every defined value lies in [0,100]. |
| Indicators.NoMovesIffFlat | agents/backtest_agent.py:39-43 | The clipped gains and losses of a window both sum to 0 exactly when every close in the window is equal. |
| Indicators.RsiUndefinedIffFlat | agents/backtest_agent.py:39-45 | Past the warm-up, RSI is NaN exactly when the price did not move over the whole window. |
| Indicators.DefaultPeriodWarmUp | agents/backtest_agent.py:38-45 | With the default window of 14, the first 14 values are NaN. The 15th is NaN exactly when the first 15 closes are all equal. |
| Simulation.ShareCount | agents/backtest_agent.py:76-78 | The share count is the largest whole number whose cost at the slippage-adjusted price fits in `cash * position_size`. |
| Simulation.CashAfterSale | agents/backtest_agent.py:90-93 | Selling credits `shares * price * (1 - transaction_cost)`. |
| Simulation.Step | agents/backtest_agent.py:59-97 | Each bar appends exactly one equity point, the marked equity. It appends at most one trade and leaves earlier trades unchanged. A BUY is appended iff the portfolio was flat, the entry rule held and at least one share was affordable. A SELL is appended iff the portfolio was long and the exit rule held. Without a trade, cash, shares and holding are unchanged. A new trade carries the bar's date. |
| Simulation.StepKeepsConsistent | agents/backtest_agent.py:67-97 | Each bar preserves the loop invariant. `holding` holds exactly when `shares > 0`. The log alternates BUY, SELL, … starting with BUY. It has odd length exactly when holding. Every SELL closes exactly the shares of the BUY before it. |
| Simulation.Run | agents/backtest_agent.py:51-97 | After any prefix of rows the invariant holds. The curve has one point per row, carrying that row's date. The first point is the initial cash. |
| Simulation.DatedAtStep | agents/backtest_agent.py:67-97 | One more row keeps the trade log dated in row order: a trade made at that row carries its date and comes after all earlier ones. |
| Simulation.TradesInRowOrder | agents/backtest_agent.py:67-97 | The loop's trades are made at strictly increasing rows, and each carries the date of the row it was made at. |
| Simulation.CloseOut | agents/backtest_agent.py:100-107 | The forced sale leaves the portfolio flat and does not touch the equity curve. |
| Simulation.Liquidate | agents/backtest_agent.py:99-111 | The result is flat. A still-open position is sold at the last close less slippage, as one more SELL of all shares that records the cash after the sale. The final curve point equals the final cash. |
| Simulation.Simulate | agents/backtest_agent.py:51-111 | It fails exactly on empty input. Otherwise the final state is flat with no shares and an even trade count. The curve has `rows + 1` points: one per row with that row's date, then the final cash. |
| Simulation.BuySizing | agents/backtest_agent.py:74-86 | A buy is dated like its bar and happens at `close*(1+slippage)`, for a positive floor-sized share count whose cost fits in the allocation. Cash drops by exactly `cost*(1+transaction_cost)`. The position opens with those shares. |
| Simulation.SaleAccounting | agents/backtest_agent.py:89-97 | A sell is dated like its bar and happens at `close*(1-slippage)` for all held shares. Cash rises by the proceeds net of the fee. Shares and holding reset. |
| Simulation.NoEntryNoTrades | agents/backtest_agent.py:51-97 | If the entry rule never fires, the loop never trades. Cash stays at the initial cash, and so does every mark. |
| Simulation.NoEntryFlatCurve | agents/backtest_agent.py:51-111 | If the entry rule never fires, the trade log is empty and all `rows + 1` equity points equal the initial cash. |
| Simulation.EveryBuyIsClosed | agents/backtest_agent.py:74-107 | After the simulation, every BUY is immediately followed by a SELL of the same share count. |
| Simulation.HalfAllocationExample | agents/backtest_agent.py:74-86 | With 1000 cash, half allocation, no slippage or fee and a close of 100, the buy is 5 shares and leaves 500 cash. |
| Simulation.FeeCanOverdraw | agents/backtest_agent.py:76-83 | Going all-in at an exact multiple of the price leaves the cash negative by the fee. |
| Metrics.PairReturns | agents/backtest_agent.py:114-120 | There are at most `len(trades)/2` round-trip returns. |
| Metrics.PairsOfAlternating | agents/backtest_agent.py:114-120 | On an alternating log there are exactly `len/2` returns. Return k is `(sell-buy)/buy` of trades 2k and 2k+1. A trailing unpaired trade is ignored. |
| Metrics.CountWins | agents/backtest_agent.py:124 | The win count is the number of positions holding a strictly positive return. So it is at most the number of returns, equals that number iff all returns are positive, and is 0 iff none is. |
| Metrics.CountWinsAppend | agents/backtest_agent.py:124 | Counting wins over two consecutive runs of returns gives the sum of their counts. |
| Metrics.FractionBounds | agents/backtest_agent.py:125 | The share of wins lies in [0,1]. It is 1 only when every round trip won, and 0 only when none did. |
| Metrics.HitRatio | agents/backtest_agent.py:124-125 | The hit ratio lies in [0,100] and is 0 with no round trips. It is 100 iff there are round trips and all of them won. It is 0 iff none won. |
| Metrics.Profits | agents/backtest_agent.py:123 | Each profit is the return times `position_size * initial_cash`. |
| Metrics.SumOfProfits | agents/backtest_agent.py:123 | The summed profits equal `position_size * initial_cash` times the summed returns. |
| Metrics.AverageReturn | agents/backtest_agent.py:152 | The average is 0 with no round trips. Otherwise it is `position_size * initial_cash` times the mean return. |
| Metrics.Peak | agents/backtest_agent.py:129 | The running maximum at point i is at least every value up to i, and is one of them. |
| Metrics.RelativeDropBounds | agents/backtest_agent.py:130 | A value's relative distance below a positive peak is ≤ 0. It is 0 exactly at the peak. It is ≥ -1 for a non-negative value. |
| Metrics.Drawdown | agents/backtest_agent.py:130 | Each drawdown is ≤ 0. It is 0 exactly at a running peak. It is ≥ -1 when the equity is non-negative. |
| Metrics.MinDrawdown | agents/backtest_agent.py:131 | The result is the smallest drawdown up to point i and is attained at some point. |
| Metrics.MaxDrawdown | agents/backtest_agent.py:128-131 | The maximum drawdown is 0 for an empty curve. Otherwise it is 100 times the smallest drawdown: at most 100 times every point's drawdown, and equal to 100 times some point's. It is ≤ 0, and ≥ -100 when the equity never goes negative. |
| Metrics.PeakOfNonDecreasing | agents/backtest_agent.py:129 | On a non-decreasing curve, the running maximum is the current value. |
| Metrics.NonDecreasingHasNoDrawdown | agents/backtest_agent.py:128-131 | A curve that never declines has maximum drawdown 0. |
| Metrics.DropHasDrawdown | agents/backtest_agent.py:128-131 | Any decline makes the maximum drawdown negative. |
| Metrics.MaxDrawdownZeroIffNonDecreasing | agents/backtest_agent.py:128-131 | The maximum drawdown is 0 exactly when the curve never falls below an earlier value. |
| Backtest.RunBacktest | agents/backtest_agent.py:47-166 | It fails exactly on empty input. Otherwise the trade log alternates and has even length, and `total_trades` is half its length. `hit_ratio` equals `win_rate` and lies in [0,100]. With no round trips, hit ratio and average return are 0. `max_drawdown` ≤ 0. The curve has `rows + 1` points and starts at the initial cash. |
| Backtest.QuietSeriesHasNeutralStatistics | agents/backtest_agent.py:51-131 | If the entry rule never fires, there are no trades and no round trips. Hit ratio, win rate, average return and drawdown are all 0. The curve is constant at the initial cash. |
| StrategyGen.Find | agents/strategy_gen.py:119-120 | `str.find` gives -1 iff there is no occurrence at or after the start. Otherwise it gives the first occurrence at or after the start. |
| StrategyGen.Strip | agents/strategy_gen.py:123 | The result is an infix whose removed margins are all whitespace. A non-empty result neither starts nor ends with whitespace. |
| StrategyGen.NoFenceInsideTag | agents/strategy_gen.py:119-120 | Searching from `start+1` cannot find a closing fence inside the opening "```json" tag, so the slice start never passes its end. |
| StrategyGen.ExtractJson | agents/strategy_gen.py:117-123 | It fails iff there is no "```json", or no "```" after the first one. Otherwise it returns the stripped text between the end of the first "```json" and the next "```". |
| StrategyGen.Missing | agents/strategy_gen.py:132 | A field is in the result iff it is required and absent. The result follows the order of the required list. |
| StrategyGen.GetMissingFields | agents/strategy_gen.py:125-132 | It returns exactly the required keys absent from `parsed`, in the fixed order of the required list. |
| StrategyGen.MissingFieldsBounds | agents/strategy_gen.py:128-132 | At most 6 fields are reported, and none exactly when all six required keys are present. |
| Explain.RiskLines | agents/explain_agent.py:78-89 | Each warning appears iff its own threshold is crossed: drawdown < -20, trades < 10, CAGR < 0, Sharpe < 1. Missing keys read as 0. Every line is one of the four warnings or the fallback line, and they come in that fixed order. The list is never empty. It is exactly the fallback line iff no threshold is crossed. |
| Explain.LaidOutAfterHead | agents/explain_agent.py:90 | Putting one line and a newline in front of a joined text gives the join of one more line. |
| Explain.Join | agents/explain_agent.py:90 | The joined text has the total line length plus one newline between each pair of neighbours. Line k sits at its offset, the combined length of the earlier lines plus k. Every line but the last is followed by a newline. |
| Explain.SplitJoin | agents/explain_agent.py:90 | When no line holds a newline, splitting the joined text at its newlines returns exactly the lines. |
| Explain.JoinedRisksFallBackOnlyWhenQuiet | agents/explain_agent.py:88-90 | The joined text is the fallback line exactly when no threshold is crossed. |
| Explain.DetectRisks | agents/explain_agent.py:78-90 | The text is never empty. It is the fallback line iff no threshold is crossed. |
| Explain.DetectOverfit | agents/explain_agent.py:92-97 | The flag is non-empty iff Sharpe > 2 and trades < 10, with missing keys read as 0. |
| Explain.OverfitImpliesFewTrades | agents/explain_agent.py:82-97 | Whenever the overfitting flag fires, the risks include the few-trades warning. They exclude the low-Sharpe warning and the fallback line. |
| Explain.MissingKeysReadAsZero | agents/explain_agent.py:80-87 | A missing trade count or Sharpe ratio raises its warning. A missing drawdown or CAGR does not. |
| RunStore.Empty | models/run_store.py:2-4 | A new store is empty and satisfies the store invariant. |
| RunStore.Add | models/run_store.py:6-10 | `add` returns `counter+1` and sets the counter to it. It appends exactly one record, tagged with that id, and leaves earlier records in place. It preserves the invariant. |
| RunStore.All | models/run_store.py:12-13 | In a reachable store the listing has `counter` records with ids 1..n in order. |
| RunStore.FirstWithId | models/run_store.py:15-16 | The result is None iff no record has the id. Otherwise it is the first record with that id. |
| RunStore.Get | models/run_store.py:15-16 | `get` returns the first stored record with the id, or None iff there is none. |
| RunStore.IdsIncrease | models/run_store.py:6-10 | Stored ids are strictly increasing, hence unique. |
| RunStore.GetByPosition | models/run_store.py:6-16 | In a reachable store, id k finds the k-th record added. Any id outside 1..n finds nothing. |
| RunStore.GetAfterAdd | models/run_store.py:6-16 | Right after `add` returns k, `get(k)` returns the record just added. |
| RunStore.AllAfterAdds | models/run_store.py:6-13 | Filling an empty store and listing it returns every record in insertion order, tagged 1..n. |

## Left out

- `fetch_data` is not modelled: the yfinance download, the column reshaping and the NaN dropping. The model takes the cleaned rows as input.
- The moving average and the Bollinger bands are not modelled, since they need a rolling standard deviation and hence a square root. Each row carries `ma` and `lower_bb` as given values.
- Sharpe, Sortino and CAGR are not modelled. They need square roots, fractional powers and calendar-day arithmetic. `round(…, n)` at the output is also left out.
- Floating point is not modelled. Arithmetic is exact over reals, and the float `//` is modelled as an exact floor.
  - Pandas' rolling means can leave tiny residues where exact arithmetic gives 0, so the NaN case of RSI is modelled only for exactly flat windows.
- `entry_price` is written by the loop but never read, so it is not part of the state.
- Console output (`print`) is not modelled.
- Simulation.Simulate: requires positive closes and `slippage > -1`. Non-positive prices and a slippage of -1 or less are excluded as meaningless for market data; with them the source computes a non-positive buy price. A zero buy price makes the source raise `ZeroDivisionError`, and the model does not include that error path.
- Backtest.RunBacktest: requires `initial_cash > 0`. A negative starting cash is excluded as meaningless for a backtest. With zero initial cash numpy's drawdown is 0/0 (NaN), which reals cannot represent.
- Metrics.MaxDrawdown: requires a positive first value. A negative first value is excluded as meaningless, and numpy would give non-negative drawdowns for it. A zero first value gives 0/0 (NaN), which reals cannot represent.
- Indicators.RsiFromAverages: requires non-negative averages. `compute_rsi` only ever passes means of clipped changes, which are non-negative.
- No contract claims that cash stays non-negative. The fee is not included in the sizing, so an all-in buy can overdraw by the fee, as `Simulation.FeeCanOverdraw` shows.
- Not modelled from `StrategyGenAgent`: the LLM retry loop `generate_strategy` and the JSON parsing. `strategy_gen1.py` is not modelled either.
- Not modelled from `ExplainabilityAgent`: `explain` (prompt building and the model call) and `sanitize_results`.
- Explain.RiskLines: result values are taken to be numbers. A non-numeric value would make Python's comparison raise `TypeError`, which is not modelled.
- RunStore.Add: the record is a value. In the source, the store keeps the caller's dictionary by reference, so a later mutation by the caller would show through. The module-level singleton is not modelled either.
- RunStore.Add: calls are modelled one at a time. The class has no lock, and `main.py`'s `def` endpoints run on worker threads. Concurrent `add` calls can therefore interleave `self._counter += 1` and repeat an id. `RunStore.IdsIncrease`, `RunStore.GetByPosition` and `RunStore.GetAfterAdd` hold only for one call at a time.
- RunStore.All: the source returns its live `_runs` list, so a caller that mutates it changes the store. The model returns a value.
- Not modelled: `main.py` and `main-old.py` (HTTP and CLI entry points), `metrics.py` (timing), and `mcp/schema.py` (field declarations with no behaviour).

=== FILE: backtest.dfy ===
/**
 * The result record `BacktestAgent.simulate` returns: the simulation's trade log and equity curve
 * with the statistics derived from them.
 */
module Backtest {
  import opened Wrappers
  import opened Simulation
  import opened Metrics

  /** The returned dictionary, without the Sharpe, Sortino and CAGR entries. */
  datatype BacktestResult = BacktestResult(
    symbol: string,
    totalTrades: nat,
    averageReturn: real,
    maxDrawdown: real,
    hitRatio: real,
    winRate: real,
    equityCurve: seq<EquityPoint>,
    trades: seq<Trade>)

  /** Simulate, then derive the statistics; fails exactly when there are no rows. */
  function RunBacktest(symbol: string, c: Config, bars: seq<Bar>): (r: Result<BacktestResult, SimError>)
    requires Tradable(c, bars) && c.initialCash > 0.0
    ensures r.Failure? <==> |bars| == 0
    ensures r.Success? ==>
      var res := r.value;
      && res.symbol == symbol
      && Alternating(res.trades) && |res.trades| % 2 == 0
      && res.totalTrades == |res.trades| / 2
      && res.hitRatio == res.winRate && 0.0 <= res.hitRatio <= 100.0
      && (res.totalTrades == 0 ==> res.hitRatio == 0.0 && res.averageReturn == 0.0)
      && res.maxDrawdown <= 0.0
      && |res.equityCurve| == |bars| + 1
      && res.equityCurve[0].value == c.initialCash
  {
    match Simulate(c, bars)
    case Failure(e) => Failure(e)
    case Success(p) =>
      PairsOfAlternating(p.trades);
      var rets := PairReturns(p.trades);
      var hit := HitRatio(rets);
      Success(BacktestResult(symbol, |rets|, AverageReturn(rets, c), MaxDrawdown(Values(p.curve)),
                             hit, hit, p.curve, p.trades))
  }

  /** Without an entry signal nothing trades: no round trips, 0% hit ratio, no profit and no drawdown. */
  lemma QuietSeriesHasNeutralStatistics(symbol: string, c: Config, bars: seq<Bar>)
    requires Tradable(c, bars) && c.initialCash > 0.0 && |bars| > 0
    requires forall i :: 0 <= i < |bars| ==> !EntrySignal(bars[i])
    ensures var res := RunBacktest(symbol, c, bars).value;
      && res.trades == [] && res.totalTrades == 0
      && res.hitRatio == 0.0 && res.winRate == 0.0 && res.averageReturn == 0.0
      && res.maxDrawdown == 0.0
      && forall i :: 0 <= i < |res.equityCurve| ==> res.equityCurve[i].value == c.initialCash
  {
    NoEntryFlatCurve(c, bars);
    var p := Simulate(c, bars).value;
    var vals := Values(p.curve);
    assert NonDecreasing(vals);
    NonDecreasingHasNoDrawdown(vals);
  }
}

=== FILE: explain.dfy ===
/**
 * The two rule-based flags of `ExplainabilityAgent`: threshold warnings over a backtest result and
 * the overfitting flag. Keys missing from the result read as 0.
 */
module Explain {
  import opened Wrappers

  /** The result entries the flags read; `None` is a key absent from the dictionary. */
  datatype Results = Results(
    maxDrawdown: Option<real>,
    totalTrades: Option<real>,
    cagr: Option<real>,
    sharpeRatio: Option<real>)

  const HighDrawdown := "- High drawdown may indicate significant risk of large losses."
  const FewTrades := "- Very few trades: results may not be statistically robust."
  const NegativeCagr := "- Negative CAGR: strategy lost money over the test period."
  const LowSharpe := "- Low Sharpe Ratio: risk-adjusted returns are weak."
  const NoMajorRisks := "- No major risks detected, but always validate with out-of-sample data."
  const OverfitWarning :=
    "\U{26A0}\U{FE0F} **Potential Overfitting:** High Sharpe Ratio with very few trades may indicate overfitting."

  predicate HighDrawdownRisk(r: Results) { r.maxDrawdown.GetOr(0.0) < -20.0 }
  predicate FewTradesRisk(r: Results) { r.totalTrades.GetOr(0.0) < 10.0 }
  predicate NegativeCagrRisk(r: Results) { r.cagr.GetOr(0.0) < 0.0 }
  predicate LowSharpeRisk(r: Results) { r.sharpeRatio.GetOr(0.0) < 1.0 }

  predicate AnyRisk(r: Results) {
    HighDrawdownRisk(r) || FewTradesRisk(r) || NegativeCagrRisk(r) || LowSharpeRisk(r)
  }

  /** Position of a line in the fixed reporting order; the fallback line comes last. */
  function Rank(line: string): nat {
    if line == HighDrawdown then 0
    else if line == FewTrades then 1
    else if line == NegativeCagr then 2
    else if line == LowSharpe then 3
    else 4
  }

  /** The warning list `detect_risks` builds before joining it with newlines. */
  function RiskLines(r: Results): (lines: seq<string>)
    ensures |lines| >= 1
    ensures HighDrawdown in lines <==> HighDrawdownRisk(r)
    ensures FewTrades in lines <==> FewTradesRisk(r)
    ensures NegativeCagr in lines <==> NegativeCagrRisk(r)
    ensures LowSharpe in lines <==> LowSharpeRisk(r)
    ensures NoMajorRisks in lines <==> !AnyRisk(r)
    ensures !AnyRisk(r) ==> lines == [NoMajorRisks]
    ensures forall i, j :: 0 <= i < j < |lines| ==> Rank(lines[i]) < Rank(lines[j])
    ensures forall l :: l in lines ==> l in [HighDrawdown, FewTrades, NegativeCagr, LowSharpe, NoMajorRisks]
  {
    var found :=
      (if HighDrawdownRisk(r) then [HighDrawdown] else [])
      + (if FewTradesRisk(r) then [FewTrades] else [])
      + (if NegativeCagrRisk(r) then [NegativeCagr] else [])
      + (if LowSharpeRisk(r) then [LowSharpe] else []);
    if found == [] then [NoMajorRisks] else found
  }

  /** Combined length of the lines, separators not included. */
  function TotalLength(lines: seq<string>): nat
    decreases |lines|
  {
    if |lines| == 0 then 0 else |lines[0]| + TotalLength(lines[1..])
  }

  /** Where line k starts in the joined text: after every earlier line and its separator. */
  function Offset(lines: seq<string>, k: nat): nat
    requires k <= |lines|
  {
    TotalLength(lines[..k]) + k
  }

  /** Dropping the first line moves every later line back by that line and its separator. */
  lemma OffsetAfterFirst(lines: seq<string>, k: nat)
    requires 0 < k <= |lines|
    ensures Offset(lines, k) == |lines[0]| + 1 + Offset(lines[1..], k - 1)
  {
    assert lines[..k][1..] == lines[1..][..k - 1];
  }

  /**
   * The text holds the lines in order with one newline between neighbours: line k sits at its
   * offset and is followed by a newline, unless it is the last.
   */
  ghost predicate LaidOut(lines: seq<string>, s: string) {
    |lines| > 0 ==>
      && |s| == TotalLength(lines) + |lines| - 1
      && (forall k :: 0 <= k < |lines| ==>
            Offset(lines, k) + |lines[k]| <= |s|
            && s[Offset(lines, k)..Offset(lines, k) + |lines[k]|] == lines[k])
      && (forall k :: 0 <= k < |lines| - 1 ==>
            Offset(lines, k) + |lines[k]| < |s| && s[Offset(lines, k) + |lines[k]|] == '\n')
  }

  /** Putting a line and a newline in front of a laid-out text lays out one more line. */
  lemma LaidOutAfterHead(lines: seq<string>, tail: string)
    requires |lines| > 1 && LaidOut(lines[1..], tail)
    ensures LaidOut(lines, lines[0] + "\n" + tail)
  {
    var rest := lines[1..];
    var head := lines[0] + "\n";
    var s := head + tail;
    assert lines[..0] == [];
    assert TotalLength(lines) == |lines[0]| + TotalLength(rest);
    forall k | 0 <= k < |lines|
      ensures Offset(lines, k) + |lines[k]| <= |s|
      ensures s[Offset(lines, k)..Offset(lines, k) + |lines[k]|] == lines[k]
    {
      if k == 0 {
        assert s[..|lines[0]|] == lines[0];
      } else {
        OffsetAfterFirst(lines, k);
        var o := Offset(rest, k - 1);
        assert rest[k - 1] == lines[k];
        assert s[|head| + o..|head| + o + |lines[k]|] == tail[o..o + |lines[k]|];
      }
    }
    forall k | 0 <= k < |lines| - 1
      ensures Offset(lines, k) + |lines[k]| < |s| && s[Offset(lines, k) + |lines[k]|] == '\n'
    {
      if k > 0 {
        OffsetAfterFirst(lines, k);
        var o := Offset(rest, k - 1);
        assert rest[k - 1] == lines[k];
        assert s[|head| + o + |lines[k]|] == tail[o + |lines[k]|];
      } else {
        assert TotalLength(rest) >= 0;
      }
    }
  }

  /** `"\n".join(lines)`. */
  function Join(lines: seq<string>): (s: string)
    ensures |lines| > 0 ==> lines[0] <= s
    ensures |lines| > 0 && |lines[0]| > 0 ==> |s| > 0
    ensures |lines| == 1 ==> s == lines[0]
    ensures |lines| > 1 ==> |s| > |lines[0]| + |lines[1]|
    ensures LaidOut(lines, s)
    decreases |lines|
  {
    if |lines| == 0 then ""
    else if |lines| == 1 then
      assert lines[..0] == [] && lines[1..] == [];
      lines[0]
    else
      var tail := Join(lines[1..]);
      LaidOutAfterHead(lines, tail);
      lines[0] + "\n" + tail
  }

  /** `str.split("\n")`: the pieces between newlines, one more than there are newlines. */
  function Split(s: string): (pieces: seq<string>)
    ensures |pieces| > 0
    decreases |s|
  {
    if |s| == 0 then [""]
    else
      var rest := Split(s[1..]);
      if s[0] == '\n' then [""] + rest else [[s[0]] + rest[0]] + rest[1..]
  }

  /** Text without a newline in front of more text extends the first piece of the latter. */
  lemma {:induction false} SplitExtendsFirst(a: string, t: string)
    requires '\n' !in a
    ensures Split(a + t) == [a + Split(t)[0]] + Split(t)[1..]
    decreases |a|
  {
    if |a| > 0 {
      assert (a + t)[1..] == a[1..] + t;
      SplitExtendsFirst(a[1..], t);
      assert [a[0]] + (a[1..] + Split(t)[0]) == a + Split(t)[0];
    } else {
      var p := Split(t);
      assert a + t == t && a + p[0] == p[0];
      assert p == [p[0]] + p[1..];
    }
  }

  /** Splitting the joined text at its newlines gives the lines back, when no line holds a newline. */
  lemma {:induction false} SplitJoin(lines: seq<string>)
    requires |lines| > 0
    requires forall k :: 0 <= k < |lines| ==> '\n' !in lines[k]
    ensures Split(Join(lines)) == lines
    decreases |lines|
  {
    if |lines| == 1 {
      SplitExtendsFirst(lines[0], "");
      assert lines[0] + "" == lines[0];
    } else {
      var tail := Join(lines[1..]);
      SplitJoin(lines[1..]);
      assert Join(lines) == lines[0] + ("\n" + tail);
      SplitExtendsFirst(lines[0], "\n" + tail);
      assert ("\n" + tail)[1..] == tail;
      assert lines[0] + "" == lines[0];
      assert lines == [lines[0]] + lines[1..];
    }
  }

  /** `detect_risks`: never empty, and the fallback line alone exactly when no threshold is crossed. */
  function DetectRisks(r: Results): (s: string)
    ensures |s| > 0
    ensures s == NoMajorRisks <==> !AnyRisk(r)
  {
    JoinedRisksFallBackOnlyWhenQuiet(r);
    Join(RiskLines(r))
  }

  /** A joined warning list starts with a warning, whose opening words differ from the fallback's. */
  lemma JoinedRisksFallBackOnlyWhenQuiet(r: Results)
    ensures Join(RiskLines(r)) == NoMajorRisks <==> !AnyRisk(r)
  {
    var lines := RiskLines(r);
    if AnyRisk(r) {
      var first := lines[0];
      assert |first| < |NoMajorRisks|;
      if |lines| > 1 {
        assert |lines[1]| + |first| >= |LowSharpe| + |NegativeCagr| > |NoMajorRisks|;
      }
    }
  }

  /** `detect_overfit`: a warning exactly when the Sharpe ratio is above 2 on fewer than 10 trades. */
  function DetectOverfit(r: Results): (s: string)
    ensures s != "" <==> r.sharpeRatio.GetOr(0.0) > 2.0 && r.totalTrades.GetOr(0.0) < 10.0
  {
    if r.sharpeRatio.GetOr(0.0) > 2.0 && r.totalTrades.GetOr(0.0) < 10.0 then OverfitWarning else ""
  }

  /** An overfitting flag always comes with the few-trades warning and never with the low-Sharpe one. */
  lemma OverfitImpliesFewTrades(r: Results)
    requires DetectOverfit(r) != ""
    ensures FewTrades in RiskLines(r) && LowSharpe !in RiskLines(r) && NoMajorRisks !in RiskLines(r)
  {
  }

  /** A missing key reads as 0: it trips the trade-count and Sharpe checks but not drawdown or CAGR. */
  lemma MissingKeysReadAsZero(r: Results)
    ensures r.totalTrades.None? ==> FewTrades in RiskLines(r)
    ensures r.sharpeRatio.None? ==> LowSharpe in RiskLines(r)
    ensures r.maxDrawdown.None? ==> HighDrawdown !in RiskLines(r)
    ensures r.cagr.None? ==> NegativeCagr !in RiskLines(r)
  {
  }
}

=== FILE: indicators.dfy ===
/**
 * The relative strength index of `BacktestAgent.compute_rsi`: daily price changes are clipped into
 * gains and losses, each is averaged over a rolling window, and RSI = 100 - 100 / (1 + gain / loss).
 * Pandas' NaN is modelled as `None`.
 */
module Indicators {
  import opened Wrappers

  /** The look-back window `compute_rsi` uses unless told otherwise. */
  const DefaultPeriod: nat := 14

  /**
   * RSI from the two rolling averages. A zero average loss makes pandas' ratio infinite, which
   * saturates the index at 100; a zero loss over a zero gain is 0/0, i.e. NaN.
   * The averages are means of clipped changes, hence never negative.
   */
  function RsiFromAverages(avgGain: real, avgLoss: real): (r: Option<real>)
    requires avgGain >= 0.0 && avgLoss >= 0.0
    ensures r.None? <==> avgGain == 0.0 && avgLoss == 0.0
    ensures r.Some? ==> 0.0 <= r.value <= 100.0
    ensures avgLoss == 0.0 && avgGain > 0.0 ==> r == Some(100.0)
  {
    if avgLoss == 0.0 then
      if avgGain == 0.0 then None else Some(100.0)
    else
      var rs := avgGain / avgLoss;
      assert 1.0 + rs >= 1.0;
      assert 0.0 < 100.0 / (1.0 + rs) <= 100.0;
      Some(100.0 - 100.0 / (1.0 + rs))
  }

  /** Closed form: RSI is the gain's share of the total movement, in percent. */
  lemma RsiClosedForm(avgGain: real, avgLoss: real)
    requires avgGain >= 0.0 && avgLoss >= 0.0 && avgGain + avgLoss > 0.0
    ensures RsiFromAverages(avgGain, avgLoss) == Some(100.0 * avgGain / (avgGain + avgLoss))
  {
    var t := avgGain + avgLoss;
    if avgLoss != 0.0 {
      var rs := avgGain / avgLoss;
      assert rs * avgLoss == avgGain;
      var d := 1.0 + rs;
      assert d * avgLoss == t;
      var q := 100.0 / d;
      assert q * d == 100.0;
      assert q * t == (q * d) * avgLoss;
      assert (100.0 - q) * t == 100.0 * avgGain;
      DivideBack(100.0 - q, 100.0 * avgGain, t);
      assert RsiFromAverages(avgGain, avgLoss) == Some(100.0 - q);
    } else {
      assert 100.0 * avgGain / t == 100.0;
    }
  }

  /** The index is above its midpoint exactly when average gains outweigh average losses. */
  lemma RsiAboveMidpoint(avgGain: real, avgLoss: real)
    requires avgGain >= 0.0 && avgLoss >= 0.0 && avgGain + avgLoss > 0.0
    ensures RsiFromAverages(avgGain, avgLoss).value > 50.0 <==> avgGain > avgLoss
  {
    RsiClosedForm(avgGain, avgLoss);
    var t := avgGain + avgLoss;
    QuotientAbove(100.0 * avgGain, t, 50.0);
  }

  /** A value whose product with a positive divisor is known is that product's quotient by the divisor. */
  lemma DivideBack(x: real, y: real, t: real)
    requires t > 0.0 && x * t == y
    ensures x == y / t
  {
  }

  /** Comparing a quotient by a positive divisor is comparing the dividend with a product. */
  lemma QuotientAbove(a: real, t: real, c: real)
    requires t > 0.0
    ensures a / t > c <==> a > c * t
  {
    var q := a / t;
    assert q * t == a;
    if q > c {
      assert (q - c) * t > 0.0;
    } else {
      assert (c - q) * t >= 0.0;
    }
  }

  /** Change of the close from bar i-1 to bar i (`series.diff()`; undefined at bar 0). */
  function Delta(closes: seq<real>, i: nat): real
    requires 1 <= i < |closes|
  {
    closes[i] - closes[i - 1]
  }

  /** The gain (`up`, `delta.clip(lower=0)`) or the loss (`-delta.clip(upper=0)`) at bar i. */
  function Move(closes: seq<real>, i: nat, up: bool): (m: real)
    requires 1 <= i < |closes|
    ensures m >= 0.0
  {
    var d := Delta(closes, i);
    if up then (if d > 0.0 then d else 0.0)
    else (if d < 0.0 then -d else 0.0)
  }

  /** Sum of the gains (or losses) of bars lo .. hi-1. */
  function MoveSum(closes: seq<real>, lo: nat, hi: nat, up: bool): (s: real)
    requires 1 <= lo <= hi <= |closes|
    ensures s >= 0.0
    decreases hi - lo
  {
    if lo == hi then 0.0 else Move(closes, lo, up) + MoveSum(closes, lo + 1, hi, up)
  }

  /** Rolling mean of the gains (or losses) over the `period` bars ending at bar i. */
  function AvgMove(closes: seq<real>, period: nat, i: nat, up: bool): (a: real)
    requires 1 <= period <= i < |closes|
    ensures a >= 0.0
  {
    MoveSum(closes, i - period + 1, i + 1, up) / period as real
  }

  /** RSI at bar i: undefined until a full window of changes exists. */
  function RsiAt(closes: seq<real>, period: nat, i: nat): Option<real>
    requires 1 <= period && i < |closes|
  {
    if i < period then None
    else RsiFromAverages(AvgMove(closes, period, i, true), AvgMove(closes, period, i, false))
  }

  /** `compute_rsi`: one (possibly undefined) RSI value per close. */
  function ComputeRsi(closes: seq<real>, period: nat): (r: seq<Option<real>>)
    requires period >= 1
    ensures |r| == |closes|
    ensures forall i :: 0 <= i < |r| && i < period ==> r[i].None?
    ensures forall i :: 0 <= i < |r| && r[i].Some? ==> 0.0 <= r[i].value <= 100.0
  {
    seq(|closes|, i requires 0 <= i < |closes| => RsiAt(closes, period, i))
  }

  /** Bars lo .. hi-1 all close at the same price. */
  ghost predicate FlatWindow(closes: seq<real>, lo: nat, hi: nat)
    requires lo < hi <= |closes|
  {
    forall j :: lo <= j < hi ==> closes[j] == closes[lo]
  }

  /** Neither gains nor losses accumulate over bars lo+1 .. hi-1 exactly when the closes are flat. */
  lemma {:induction false} NoMovesIffFlat(closes: seq<real>, lo: nat, hi: nat)
    requires lo < hi <= |closes|
    ensures MoveSum(closes, lo + 1, hi, true) == 0.0 && MoveSum(closes, lo + 1, hi, false) == 0.0
            <==> FlatWindow(closes, lo, hi)
    decreases hi - lo
  {
    if lo + 1 < hi {
      NoMovesIffFlat(closes, lo + 1, hi);
      var still := Move(closes, lo + 1, true) == 0.0 && Move(closes, lo + 1, false) == 0.0;
      assert still <==> closes[lo + 1] == closes[lo];
      if FlatWindow(closes, lo, hi) {
        assert FlatWindow(closes, lo + 1, hi);
      }
      if still && FlatWindow(closes, lo + 1, hi) {
        forall j | lo <= j < hi
          ensures closes[j] == closes[lo]
        {
          if j > lo { assert closes[j] == closes[lo + 1]; }
        }
      }
    }
  }

  /** Past the warm-up, RSI is NaN exactly when the price did not move over the whole window. */
  lemma RsiUndefinedIffFlat(closes: seq<real>, period: nat, i: nat)
    requires 1 <= period <= i < |closes|
    ensures ComputeRsi(closes, period)[i].None? <==> FlatWindow(closes, i - period, i + 1)
  {
    NoMovesIffFlat(closes, i - period, i + 1);
    var g := MoveSum(closes, i - period + 1, i + 1, true);
    var l := MoveSum(closes, i - period + 1, i + 1, false);
    assert AvgMove(closes, period, i, true) == 0.0 <==> g == 0.0;
    assert AvgMove(closes, period, i, false) == 0.0 <==> l == 0.0;
  }

  /** With the default 14-bar window, the first 14 values are NaN and the 15th is NaN only after 15 equal closes. */
  lemma DefaultPeriodWarmUp(closes: seq<real>)
    requires |closes| > DefaultPeriod
    ensures forall i :: 0 <= i < DefaultPeriod ==> ComputeRsi(closes, DefaultPeriod)[i].None?
    ensures ComputeRsi(closes, DefaultPeriod)[DefaultPeriod].None? <==> FlatWindow(closes, 0, DefaultPeriod + 1)
  {
    RsiUndefinedIffFlat(closes, DefaultPeriod, DefaultPeriod);
  }
}

=== FILE: metrics.dfy ===
/**
 * The statistics `BacktestAgent.simulate` derives from its trade log and equity curve: round-trip
 * returns, hit ratio, average profit and maximum drawdown.
 */
module Metrics {
  import opened Simulation

  /** Relative gain of one round trip, `(sell - buy) / buy`. */
  function RoundTripReturn(buy: Trade, sell: Trade): real
    requires buy.price != 0.0
  {
    (sell.price - buy.price) / buy.price
  }

  /** Every BUY has a non-zero price, so the returns can be divided out. */
  predicate BuysPriced(t: seq<Trade>) {
    forall i :: 0 <= i < |t| && t[i].side == Buy ==> t[i].price != 0.0
  }

  /**
   * The pairing loop over `range(0, len(trades) - 1, 2)`: trades 2k and 2k+1 yield a return when they
   * are a BUY followed by a SELL; a trailing unpaired trade is skipped.
   */
  function PairReturns(t: seq<Trade>): (r: seq<real>)
    requires BuysPriced(t)
    ensures |r| <= |t| / 2
    decreases |t|
  {
    if |t| < 2 then []
    else
      assert BuysPriced(t[2..]) by {
        forall i | 0 <= i < |t| - 2 && t[2..][i].side == Buy
          ensures t[2..][i].price != 0.0
        {
          assert t[2..][i] == t[i + 2];
        }
      }
      (if t[0].side == Buy && t[1].side == Sell then [RoundTripReturn(t[0], t[1])] else [])
      + PairReturns(t[2..])
  }

  /** On an alternating log, round trip k is exactly trades 2k and 2k+1, and every full pair counts. */
  lemma {:induction false} PairsOfAlternating(t: seq<Trade>)
    requires Alternating(t) && BuysPriced(t)
    ensures |PairReturns(t)| == |t| / 2
    ensures forall k :: 0 <= k < |t| / 2 ==> PairReturns(t)[k] == RoundTripReturn(t[2 * k], t[2 * k + 1])
    decreases |t|
  {
    if |t| >= 2 {
      var rest := t[2..];
      assert Alternating(rest) by {
        forall i | 0 <= i < |rest|
          ensures rest[i].side == (if i % 2 == 0 then Buy else Sell)
        {
          assert rest[i] == t[i + 2];
          assert (i + 2) % 2 == i % 2;
        }
      }
      assert BuysPriced(rest) by {
        forall i | 0 <= i < |rest| && rest[i].side == Buy
          ensures rest[i].price != 0.0
        {
          assert rest[i] == t[i + 2];
        }
      }
      PairsOfAlternating(rest);
      assert t[0].side == Buy && t[1].side == Sell;
      var r := PairReturns(t);
      assert r == [RoundTripReturn(t[0], t[1])] + PairReturns(rest);
      forall k | 1 <= k < |t| / 2
        ensures r[k] == RoundTripReturn(t[2 * k], t[2 * k + 1])
      {
        assert r[k] == PairReturns(rest)[k - 1];
        assert rest[2 * (k - 1)] == t[2 * k];
        assert rest[2 * (k - 1) + 1] == t[2 * k + 1];
      }
    }
  }

  /** Positions of the winning (strictly positive) returns. */
  ghost function WinIndices(xs: seq<real>): set<int> {
    set i | 0 <= i < |xs| && xs[i] > 0.0
  }

  /** Number of strictly positive returns (`num_wins`). */
  function CountWins(xs: seq<real>): (n: nat)
    ensures n == |WinIndices(xs)|
    ensures n <= |xs|
    ensures n == |xs| <==> forall i :: 0 <= i < |xs| ==> xs[i] > 0.0
    ensures n == 0 <==> forall i :: 0 <= i < |xs| ==> xs[i] <= 0.0
    decreases |xs|
  {
    if |xs| == 0 then
      assert WinIndices(xs) == {};
      0
    else
      var k := |xs| - 1;
      var init := xs[..k];
      var rest := CountWins(init);
      assert forall i :: 0 <= i < k ==> init[i] == xs[i];
      if xs[k] > 0.0 then
        assert WinIndices(xs) == WinIndices(init) + {k};
        rest + 1
      else
        assert WinIndices(xs) == WinIndices(init);
        rest
  }

  /** Counting wins over two consecutive runs of returns adds their counts. */
  lemma {:induction false} CountWinsAppend(a: seq<real>, b: seq<real>)
    ensures CountWins(a + b) == CountWins(a) + CountWins(b)
    decreases |b|
  {
    if |b| == 0 {
      assert a + b == a;
    } else {
      var k := |b| - 1;
      assert (a + b)[..|a| + k] == a + b[..k];
      CountWinsAppend(a, b[..k]);
    }
  }

  /** `hit_ratio`: percentage of winning round trips, 0 when there are none (before rounding). */
  function HitRatio(rets: seq<real>): (h: real)
    ensures 0.0 <= h <= 100.0
    ensures |rets| == 0 ==> h == 0.0
    ensures h == 100.0 <==> |rets| > 0 && forall i :: 0 <= i < |rets| ==> rets[i] > 0.0
    ensures h == 0.0 <==> forall i :: 0 <= i < |rets| ==> rets[i] <= 0.0
  {
    if |rets| == 0 then 0.0
    else
      var wins := CountWins(rets) as real;
      var n := |rets| as real;
      FractionBounds(wins, n);
      wins / n * 100.0
  }

  /** A share of a positive whole lies in [0,1], and hits either end only at the matching count. */
  lemma FractionBounds(part: real, whole: real)
    requires 0.0 <= part <= whole && whole > 0.0
    ensures 0.0 <= part / whole <= 1.0
    ensures part / whole == 1.0 <==> part == whole
    ensures part / whole == 0.0 <==> part == 0.0
  {
    var q := part / whole;
    assert q * whole == part;
    ScaleMonotone(1.0, q, whole);
    ScaleMonotone(q, 0.0, whole);
  }

  function Sum(xs: seq<real>): real
    decreases |xs|
  {
    if |xs| == 0 then 0.0 else xs[0] + Sum(xs[1..])
  }

  /** `profits`: each return scaled by the position fraction of the initial cash. */
  function Profits(rets: seq<real>, c: Config): (p: seq<real>)
    ensures |p| == |rets|
    ensures forall i :: 0 <= i < |rets| ==> p[i] == rets[i] * c.positionSize * c.initialCash
    decreases |rets|
  {
    if |rets| == 0 then [] else [rets[0] * c.positionSize * c.initialCash] + Profits(rets[1..], c)
  }

  /** Summing the profits is summing the returns and scaling once. */
  lemma {:induction false} SumOfProfits(rets: seq<real>, c: Config)
    ensures Sum(Profits(rets, c)) == c.positionSize * c.initialCash * Sum(rets)
    decreases |rets|
  {
    if |rets| > 0 {
      SumOfProfits(rets[1..], c);
      assert Profits(rets, c)[1..] == Profits(rets[1..], c);
      calc {
        Sum(Profits(rets, c));
        rets[0] * c.positionSize * c.initialCash + Sum(Profits(rets[1..], c));
        rets[0] * c.positionSize * c.initialCash + c.positionSize * c.initialCash * Sum(rets[1..]);
        c.positionSize * c.initialCash * (rets[0] + Sum(rets[1..]));
      }
    }
  }

  /** `average_return`: mean profit per round trip, 0 without round trips (before rounding). */
  function AverageReturn(rets: seq<real>, c: Config): (a: real)
    ensures |rets| == 0 ==> a == 0.0
    ensures |rets| > 0 ==> a == c.positionSize * c.initialCash * (Sum(rets) / |rets| as real)
  {
    var profits := Profits(rets, c);
    if |profits| == 0 then 0.0
    else
      SumOfProfits(rets, c);
      Sum(profits) / |profits| as real
  }

  function Max(a: real, b: real): real {
    if a >= b then a else b
  }

  /** `np.maximum.accumulate`: the highest equity seen up to and including point i. */
  function Peak(vals: seq<real>, i: nat): (m: real)
    requires i < |vals|
    ensures forall j :: 0 <= j <= i ==> vals[j] <= m
    ensures exists j :: 0 <= j <= i && vals[j] == m
    decreases i
  {
    if i == 0 then vals[0]
    else
      Max(Peak(vals, i - 1), vals[i])
  }

  /** Drawdown of point i from its running peak; the first equity value is positive, so is every peak. */
  function Drawdown(vals: seq<real>, i: nat): (d: real)
    requires i < |vals| && vals[0] > 0.0
    ensures d <= 0.0
    ensures d == 0.0 <==> vals[i] == Peak(vals, i)
    ensures vals[i] >= 0.0 ==> d >= -1.0
  {
    var m := Peak(vals, i);
    assert m >= vals[0] > 0.0;
    var d := (vals[i] - m) / m;
    RelativeDropBounds(vals[i], m);
    d
  }

  /** The relative distance of a value below a positive peak lies in [-1, 0] for non-negative values. */
  lemma RelativeDropBounds(v: real, m: real)
    requires m > 0.0 && v <= m
    ensures (v - m) / m <= 0.0
    ensures (v - m) / m == 0.0 <==> v == m
    ensures v >= 0.0 ==> (v - m) / m >= -1.0
  {
    var d := (v - m) / m;
    assert d * m == v - m;
    if d > 0.0 {
      ScaleMonotone(0.0, d, m);
    }
    if d < 0.0 {
      ScaleMonotone(d, 0.0, m);
    }
    if d < -1.0 {
      ScaleMonotone(d, -1.0, m);
      assert d * m < -m;
    }
  }

  /** The smallest drawdown among points 0 .. i. */
  function MinDrawdown(vals: seq<real>, i: nat): (d: real)
    requires i < |vals| && vals[0] > 0.0
    ensures forall j :: 0 <= j <= i ==> d <= Drawdown(vals, j)
    ensures exists j :: 0 <= j <= i && d == Drawdown(vals, j)
    decreases i
  {
    if i == 0 then Drawdown(vals, 0)
    else
      var before := MinDrawdown(vals, i - 1);
      var here := Drawdown(vals, i);
      if here < before then here else before
  }

  /** `max_drawdown`: the deepest drawdown of the curve in percent, 0 for an empty curve (before rounding). */
  function MaxDrawdown(vals: seq<real>): (r: real)
    requires |vals| > 0 ==> vals[0] > 0.0
    ensures |vals| == 0 ==> r == 0.0
    ensures |vals| > 0 ==> forall i :: 0 <= i < |vals| ==> r <= 100.0 * Drawdown(vals, i)
    ensures |vals| > 0 ==> exists i :: 0 <= i < |vals| && r == 100.0 * Drawdown(vals, i)
    ensures r <= 0.0
    ensures (forall i :: 0 <= i < |vals| ==> vals[i] >= 0.0) ==> r >= -100.0
  {
    if |vals| == 0 then 0.0
    else
      100.0 * MinDrawdown(vals, |vals| - 1)
  }

  predicate NonDecreasing(vals: seq<real>) {
    forall i :: 0 < i < |vals| ==> vals[i - 1] <= vals[i]
  }

  /** On a non-decreasing curve every point is its own running peak. */
  lemma {:induction false} PeakOfNonDecreasing(vals: seq<real>, i: nat)
    requires i < |vals| && NonDecreasing(vals)
    ensures Peak(vals, i) == vals[i]
    decreases i
  {
    if i > 0 {
      PeakOfNonDecreasing(vals, i - 1);
    }
  }

  /** The maximum drawdown is zero exactly when the curve never falls below an earlier value. */
  lemma MaxDrawdownZeroIffNonDecreasing(vals: seq<real>)
    requires |vals| > 0 && vals[0] > 0.0
    ensures MaxDrawdown(vals) == 0.0 <==> NonDecreasing(vals)
  {
    if NonDecreasing(vals) {
      NonDecreasingHasNoDrawdown(vals);
    } else {
      var i :| 0 < i < |vals| && vals[i - 1] > vals[i];
      DropHasDrawdown(vals, i);
    }
  }

  lemma NonDecreasingHasNoDrawdown(vals: seq<real>)
    requires |vals| > 0 && vals[0] > 0.0 && NonDecreasing(vals)
    ensures MaxDrawdown(vals) == 0.0
  {
    var m := MinDrawdown(vals, |vals| - 1);
    var j :| 0 <= j < |vals| && m == Drawdown(vals, j);
    PeakOfNonDecreasing(vals, j);
  }

  lemma DropHasDrawdown(vals: seq<real>, i: nat)
    requires 0 < i < |vals| && vals[0] > 0.0 && vals[i - 1] > vals[i]
    ensures MaxDrawdown(vals) < 0.0
  {
    assert Peak(vals, i) >= vals[i - 1];
    assert Drawdown(vals, i) < 0.0;
  }

  /** The values of an equity curve, in order. */
  function Values(curve: seq<EquityPoint>): (v: seq<real>)
    ensures |v| == |curve|
    ensures forall i :: 0 <= i < |curve| ==> v[i] == curve[i].value
  {
    seq(|curve|, i requires 0 <= i < |curve| => curve[i].value)
  }
}

=== FILE: run_store.dfy ===
/**
 * `StrategyRunStore`: an in-memory list of finished runs, each tagged with the next value of a
 * counter, listed in insertion order and looked up by id.
 */
module RunStore {
  import opened Wrappers

  /** A stored run: the caller's record together with the `"id"` entry the store writes into it. */
  datatype Run<T> = Run(id: int, data: T)

  /** The store's `_runs` list and `_counter`. */
  datatype Store<T> = Store(runs: seq<Run<T>>, counter: int)

  /** Every store the class can reach: ids 1 .. n in insertion order, the counter at n. */
  ghost predicate Valid<T>(s: Store<T>) {
    s.counter == |s.runs| && forall i :: 0 <= i < |s.runs| ==> s.runs[i].id == i + 1
  }

  /** A fresh store, as `__init__` builds it. */
  function Empty<T>(): (s: Store<T>)
    ensures Valid(s) && s.runs == []
  {
    Store([], 0)
  }

  /** `add`: bump the counter, tag the record with it, append it, and return the new id. */
  function Add<T>(s: Store<T>, data: T): (r: (Store<T>, int))
    ensures r.1 == s.counter + 1 && r.0.counter == r.1
    ensures |r.0.runs| == |s.runs| + 1 && r.0.runs[..|s.runs|] == s.runs
    ensures r.0.runs[|s.runs|] == Run(r.1, data)
    ensures Valid(s) ==> Valid(r.0)
  {
    var id := s.counter + 1;
    (Store(s.runs + [Run(id, data)], id), id)
  }

  /** `all`: the stored runs, oldest first. */
  function All<T>(s: Store<T>): (runs: seq<Run<T>>)
    ensures Valid(s) ==> |runs| == s.counter
    ensures Valid(s) ==> forall i :: 0 <= i < |runs| ==> runs[i].id == i + 1
  {
    s.runs
  }

  /** The first run in `runs` whose id is `id`, if any. */
  function FirstWithId<T>(runs: seq<Run<T>>, id: int): (r: Option<Run<T>>)
    ensures r.None? <==> forall i :: 0 <= i < |runs| ==> runs[i].id != id
    ensures r.Some? ==> exists i ::
      && 0 <= i < |runs| && runs[i] == r.value && r.value.id == id
      && forall j :: 0 <= j < i ==> runs[j].id != id
    decreases |runs|
  {
    if |runs| == 0 then None
    else if runs[0].id == id then Some(runs[0])
    else
      var rest := FirstWithId(runs[1..], id);
      assert forall i :: 1 <= i < |runs| ==> runs[i] == runs[1..][i - 1];
      rest
  }

  /** `get`: the first stored run with the given id, or `None`. */
  function Get<T>(s: Store<T>, id: int): (r: Option<Run<T>>)
    ensures r.None? <==> forall i :: 0 <= i < |s.runs| ==> s.runs[i].id != id
    ensures r.Some? ==> exists i ::
      && 0 <= i < |s.runs| && s.runs[i] == r.value && r.value.id == id
      && forall j :: 0 <= j < i ==> s.runs[j].id != id
  {
    FirstWithId(s.runs, id)
  }

  /** Ids are unique and strictly increasing in insertion order. */
  lemma IdsIncrease<T>(s: Store<T>)
    requires Valid(s)
    ensures forall i, j :: 0 <= i < j < |s.runs| ==> s.runs[i].id < s.runs[j].id
  {
  }

  /** In a reachable store, id k names the k-th run added, and no other id names anything. */
  lemma GetByPosition<T>(s: Store<T>, id: int)
    requires Valid(s)
    ensures 1 <= id <= |s.runs| ==> Get(s, id) == Some(s.runs[id - 1])
    ensures id < 1 || id > |s.runs| ==> Get(s, id) == None
  {
    if 1 <= id <= |s.runs| {
      assert s.runs[id - 1].id == id;
      var r := Get(s, id);
      var i :| 0 <= i < |s.runs| && s.runs[i] == r.value && r.value.id == id;
      assert i == id - 1;
    }
  }

  /** Right after `add` returns an id, `get` of that id returns the record just added. */
  lemma GetAfterAdd<T>(s: Store<T>, data: T)
    requires Valid(s)
    ensures var (s', id) := Add(s, data); Get(s', id) == Some(Run(id, data))
  {
    var (s', id) := Add(s, data);
    GetByPosition(s', id);
  }

  /** A store built by adding each record of `items` in turn. */
  function AddAll<T>(s: Store<T>, items: seq<T>): Store<T>
    decreases |items|
  {
    if |items| == 0 then s else Add(AddAll(s, items[..|items| - 1]), items[|items| - 1]).0
  }

  /** Listing a store filled from empty gives back every record, in order, tagged 1 .. n. */
  lemma {:induction false} AllAfterAdds<T>(items: seq<T>)
    ensures Valid(AddAll(Empty(), items))
    ensures All(AddAll(Empty(), items)) == seq(|items|, i requires 0 <= i < |items| => Run(i + 1, items[i]))
    decreases |items|
  {
    if |items| > 0 {
      var prefix := items[..|items| - 1];
      AllAfterAdds(prefix);
      var before := AddAll(Empty(), prefix);
      var after := AddAll(Empty(), items);
      assert after == Add(before, items[|items| - 1]).0;
      assert All(after) == All(before) + [Run(|items|, items[|items| - 1])];
    }
  }
}

=== FILE: simulation.dfy ===
/**
 * The trading loop of `BacktestAgent.simulate`: a two-state machine (flat / long) folded over the
 * cleaned indicator rows in date order, followed by the forced liquidation of an open position.
 */
module Simulation {
  import opened Wrappers

  /** Calendar day of a bar, as the `YYYY-MM-DD` text the source writes into trades and the curve. */
  type Date = string

  /** One cleaned indicator row: the columns the trading rules read. */
  datatype Bar = Bar(date: Date, close: real, rsi: real, lowerBb: real, ma: real)

  /** The constructor arguments of `BacktestAgent`. */
  datatype Config = Config(initialCash: real, positionSize: real, slippage: real, transactionCost: real)

  /** The constructor's defaults: 100000 cash, all-in, 0.1% slippage, 0.05% fee. */
  const Defaults := Config(100000.0, 1.0, 0.001, 0.0005)

  datatype Side = Buy | Sell

  /** A trade log entry `(date, side, price, shares, equity)`. */
  datatype Trade = Trade(date: Date, side: Side, price: real, shares: int, equity: real)

  /** An equity curve entry `(date, equity)`. */
  datatype EquityPoint = EquityPoint(date: Date, value: real)

  /** The loop's local state: `cash`, `shares`, `holding`, the trade log and the equity curve. */
  datatype Portfolio = Portfolio(cash: real, shares: int, holding: bool, trades: seq<Trade>, curve: seq<EquityPoint>)

  /** An empty frame: the source fails indexing its last row. */
  datatype SimError = NoData

  const OversoldRsi := 30.0
  const OverboughtRsi := 70.0

  /** Buy rule: oversold and below the lower Bollinger band. */
  predicate EntrySignal(b: Bar) {
    b.rsi < OversoldRsi && b.close < b.lowerBb
  }

  /** Sell rule: overbought or above the moving average. */
  predicate ExitSignal(b: Bar) {
    b.rsi > OverboughtRsi || b.close > b.ma
  }

  /** Closes are positive and slippage keeps the buy price positive, so sizing never divides by zero. */
  predicate Tradable(c: Config, bars: seq<Bar>) {
    c.slippage > -1.0 && forall i :: 0 <= i < |bars| ==> bars[i].close > 0.0
  }

  function BuyPrice(c: Config, close: real): (p: real)
    requires c.slippage > -1.0 && close > 0.0
    ensures p > 0.0
  {
    close * (1.0 + c.slippage)
  }

  function SellPrice(c: Config, close: real): real {
    close * (1.0 - c.slippage)
  }

  /** `int(alloc_cash // buy_price)`: the most whole shares the allocated cash pays for. */
  function ShareCount(c: Config, cash: real, close: real): (n: int)
    requires c.slippage > -1.0 && close > 0.0
    ensures n as real * BuyPrice(c, close) <= cash * c.positionSize
    ensures cash * c.positionSize < (n + 1) as real * BuyPrice(c, close)
  {
    var price := BuyPrice(c, close);
    var q := cash * c.positionSize / price;
    var f := q.Floor as real;
    assert q * price == cash * c.positionSize;
    assert f <= q < f + 1.0;
    ScaleMonotone(f, q, price);
    ScaleMonotone(q, f + 1.0, price);
    var n := q.Floor;
    assert (n + 1) as real == f + 1.0;
    assert (n + 1) as real * price == (f + 1.0) * price;
    assert q * price < (f + 1.0) * price;
    assert cash * c.positionSize < (n + 1) as real * price;
    n
  }

  /** Multiplying by a positive factor keeps the order of two reals. */
  lemma ScaleMonotone(a: real, b: real, k: real)
    requires k > 0.0
    ensures a <= b ==> a * k <= b * k
    ensures a < b ==> a * k < b * k
  {
  }

  /** Daily equity: the position at the close plus cash when long, cash alone when flat. */
  function MarkToMarket(p: Portfolio, close: real): real {
    if p.holding then p.shares as real * close + p.cash else p.cash
  }

  /** Cash after selling every held share at `price`, net of the fee. */
  function CashAfterSale(c: Config, p: Portfolio, price: real): (cash: real)
    ensures cash == p.cash + p.shares as real * price * (1.0 - c.transactionCost)
  {
    var proceeds := p.shares as real * price;
    assert proceeds - proceeds * c.transactionCost == proceeds * (1.0 - c.transactionCost);
    p.cash + (proceeds - proceeds * c.transactionCost)
  }

  function Initial(c: Config): Portfolio {
    Portfolio(c.initialCash, 0, false, [], [])
  }

  /** BUY at every even position of the log, SELL at every odd one. */
  predicate Alternating(t: seq<Trade>) {
    forall i :: 0 <= i < |t| ==> t[i].side == (if i % 2 == 0 then Buy else Sell)
  }

  /** `after` is `before` with one more trade, on the given side. */
  predicate Appended(before: seq<Trade>, after: seq<Trade>, side: Side) {
    |after| == |before| + 1 && after[..|before|] == before && after[|before|].side == side
  }

  /** The invariant of the trading loop. */
  predicate Consistent(p: Portfolio) {
    && p.shares >= 0
    && (p.holding <==> p.shares > 0)
    && Alternating(p.trades)
    && (p.holding <==> |p.trades| % 2 == 1)
    && (p.holding ==> p.trades[|p.trades| - 1].shares == p.shares)
    && (forall i :: 0 <= i < |p.trades| && p.trades[i].side == Buy ==> p.trades[i].shares > 0 && p.trades[i].price > 0.0)
    && (forall i :: 0 < i < |p.trades| && p.trades[i].side == Sell ==> p.trades[i].shares == p.trades[i - 1].shares)
  }

  /** No position is open: no shares, and every BUY has its SELL right after it. */
  predicate Flat(p: Portfolio) {
    Consistent(p) && !p.holding
  }

  /** One iteration of the loop over rows: mark equity, then at most one of buy or sell. */
  function Step(c: Config, p: Portfolio, b: Bar): (r: Portfolio)
    requires c.slippage > -1.0 && b.close > 0.0
    ensures r.curve == p.curve + [EquityPoint(b.date, MarkToMarket(p, b.close))]
    ensures r.trades == p.trades || Appended(p.trades, r.trades, Buy) || Appended(p.trades, r.trades, Sell)
    ensures Appended(p.trades, r.trades, Buy) <==> !p.holding && EntrySignal(b) && ShareCount(c, p.cash, b.close) > 0
    ensures Appended(p.trades, r.trades, Sell) <==> p.holding && ExitSignal(b)
    ensures r.trades == p.trades ==> r.cash == p.cash && r.shares == p.shares && r.holding == p.holding
    ensures |r.trades| > |p.trades| ==> r.trades[|p.trades|].date == b.date
  {
    var equity := MarkToMarket(p, b.close);
    var marked := p.(curve := p.curve + [EquityPoint(b.date, equity)]);
    if !p.holding && EntrySignal(b) then
      var n := ShareCount(c, p.cash, b.close);
      if n > 0 then
        var price := BuyPrice(c, b.close);
        var cost := n as real * price;
        var fee := cost * c.transactionCost;
        marked.(cash := p.cash - (cost + fee), shares := p.shares + n, holding := true,
                trades := p.trades + [Trade(b.date, Buy, price, n, equity)])
      else
        marked
    else if p.holding && ExitSignal(b) then
      var price := SellPrice(c, b.close);
      marked.(cash := CashAfterSale(c, p, price), shares := 0, holding := false,
              trades := p.trades + [Trade(b.date, Sell, price, p.shares, equity)])
    else
      marked
  }

  /** Every iteration preserves the loop invariant. */
  lemma StepKeepsConsistent(c: Config, p: Portfolio, b: Bar)
    requires c.slippage > -1.0 && b.close > 0.0
    requires Consistent(p)
    ensures Consistent(Step(c, p, b))
  {
    var r := Step(c, p, b);
    if Appended(p.trades, r.trades, Buy) {
      assert r.trades == p.trades + [r.trades[|p.trades|]];
    } else if Appended(p.trades, r.trades, Sell) {
      assert r.trades == p.trades + [r.trades[|p.trades|]];
    }
  }

  /** The loop over all rows, as a left fold over the prefix. */
  function Run(c: Config, bars: seq<Bar>): (r: Portfolio)
    requires Tradable(c, bars)
    ensures Consistent(r)
    ensures |r.curve| == |bars|
    ensures forall i :: 0 <= i < |bars| ==> r.curve[i].date == bars[i].date
    ensures |bars| > 0 ==> r.curve[0].value == c.initialCash
    decreases |bars|
  {
    if |bars| == 0 then Initial(c)
    else
      var before := Run(c, bars[..|bars| - 1]);
      StepKeepsConsistent(c, before, bars[|bars| - 1]);
      Step(c, before, bars[|bars| - 1])
  }

  /** The row at which each trade of the loop was made, in log order. */
  ghost function TradeRows(c: Config, bars: seq<Bar>): seq<nat>
    requires Tradable(c, bars)
    decreases |bars|
  {
    if |bars| == 0 then []
    else
      var k := |bars| - 1;
      var before := Run(c, bars[..k]);
      TradeRows(c, bars[..k]) + (if |Step(c, before, bars[k]).trades| > |before.trades| then [k] else [])
  }

  /** Trade k was made at row `rows[k]` and carries its date; the rows strictly increase along the log. */
  ghost predicate DatedAt(t: seq<Trade>, rows: seq<nat>, bars: seq<Bar>) {
    && |rows| == |t|
    && (forall k :: 0 <= k < |rows| ==> rows[k] < |bars| && t[k].date == bars[rows[k]].date)
    && (forall k, l :: 0 <= k < l < |rows| ==> rows[k] < rows[l])
  }

  /** One more row keeps the log dated in row order: a new trade is made at, and dated like, that row. */
  lemma DatedAtStep(c: Config, p: Portfolio, bars: seq<Bar>, rows: seq<nat>)
    requires |bars| > 0 && c.slippage > -1.0 && bars[|bars| - 1].close > 0.0
    requires DatedAt(p.trades, rows, bars[..|bars| - 1])
    ensures var n := |bars| - 1; var r := Step(c, p, bars[n]);
      DatedAt(r.trades, rows + (if |r.trades| > |p.trades| then [n] else []), bars)
  {
    var n := |bars| - 1;
    var r := Step(c, p, bars[n]);
    assert forall j :: 0 <= j < n ==> bars[..n][j] == bars[j];
    if |r.trades| > |p.trades| {
      var rows' := rows + [n];
      assert r.trades == p.trades + [r.trades[|p.trades|]];
      assert forall k :: 0 <= k < |rows| ==> rows'[k] == rows[k];
    }
  }

  /** The loop's trades are made at strictly increasing rows, each dated like the row it was made at. */
  lemma {:induction false} TradesInRowOrder(c: Config, bars: seq<Bar>)
    requires Tradable(c, bars)
    ensures DatedAt(Run(c, bars).trades, TradeRows(c, bars), bars)
    decreases |bars|
  {
    if |bars| > 0 {
      var n := |bars| - 1;
      TradesInRowOrder(c, bars[..n]);
      DatedAtStep(c, Run(c, bars[..n]), bars, TradeRows(c, bars[..n]));
    }
  }

  /** After the loop: sell a still-open position at the last close, then add the final cash point. */
  function Liquidate(c: Config, p: Portfolio, last: Bar): (r: Portfolio)
    requires Consistent(p)
    ensures Flat(r)
    ensures r.curve == p.curve + [EquityPoint(last.date, r.cash)]
    ensures r.trades == p.trades <==> !p.holding
    ensures !p.holding ==> r.cash == p.cash
    ensures p.holding ==> r.trades == p.trades + [Trade(last.date, Sell, SellPrice(c, last.close), p.shares, r.cash)]
    ensures p.holding ==> r.cash == p.cash + p.shares as real * SellPrice(c, last.close) * (1.0 - c.transactionCost)
  {
    var closed := if p.holding && p.shares > 0 then CloseOut(c, p, last) else p;
    closed.(curve := closed.curve + [EquityPoint(last.date, closed.cash)])
  }

  /** The forced sale: every held share at the last close less slippage; the trade records the cash after it. */
  function CloseOut(c: Config, p: Portfolio, last: Bar): (r: Portfolio)
    requires Consistent(p) && p.holding
    ensures Flat(r) && r.curve == p.curve
  {
    var price := SellPrice(c, last.close);
    var cash := CashAfterSale(c, p, price);
    var r := p.(cash := cash, shares := 0, holding := false,
                trades := p.trades + [Trade(last.date, Sell, price, p.shares, cash)]);
    assert r.trades[..|p.trades|] == p.trades;
    r
  }

  /** The whole simulation: the trade log, the equity curve and the final cash, or `NoData`. */
  function Simulate(c: Config, bars: seq<Bar>): (r: Result<Portfolio, SimError>)
    requires Tradable(c, bars)
    ensures r.Failure? <==> |bars| == 0
    ensures r.Success? ==> Flat(r.value) && r.value.shares == 0 && |r.value.trades| % 2 == 0
    ensures r.Success? ==> |r.value.curve| == |bars| + 1
    ensures r.Success? ==> r.value.curve[|bars|] == EquityPoint(bars[|bars| - 1].date, r.value.cash)
    ensures r.Success? ==> forall i :: 0 <= i < |bars| ==> r.value.curve[i].date == bars[i].date
    ensures r.Success? ==> r.value.curve[0].value == c.initialCash
  {
    if |bars| == 0 then Failure(NoData)
    else Success(Liquidate(c, Run(c, bars), bars[|bars| - 1]))
  }

  /** A buy takes the floor-sized share count at the slippage-adjusted close, pays notional plus fee, and opens the position. */
  lemma BuySizing(c: Config, p: Portfolio, b: Bar)
    requires c.slippage > -1.0 && b.close > 0.0 && Consistent(p)
    requires Appended(p.trades, Step(c, p, b).trades, Buy)
    ensures var r := Step(c, p, b); var t := r.trades[|p.trades|];
      && t.date == b.date
      && t.price == b.close * (1.0 + c.slippage)
      && t.shares > 0
      && t.shares as real * t.price <= p.cash * c.positionSize < (t.shares + 1) as real * t.price
      && r.cash == p.cash - t.shares as real * t.price * (1.0 + c.transactionCost)
      && r.shares == t.shares && r.holding
      && t.equity == p.cash
  {
  }

  /** A sell closes the whole position at the slippage-adjusted close and credits proceeds net of the fee. */
  lemma SaleAccounting(c: Config, p: Portfolio, b: Bar)
    requires c.slippage > -1.0 && b.close > 0.0 && Consistent(p)
    requires Appended(p.trades, Step(c, p, b).trades, Sell)
    ensures var r := Step(c, p, b); var t := r.trades[|p.trades|];
      && t.date == b.date
      && t.price == b.close * (1.0 - c.slippage)
      && t.shares == p.shares > 0
      && r.cash == p.cash + p.shares as real * t.price * (1.0 - c.transactionCost)
      && r.shares == 0 && !r.holding
      && t.equity == p.cash + p.shares as real * b.close
  {
  }

  /** When the entry rule never fires the loop never trades and every mark is the initial cash. */
  lemma {:induction false} NoEntryNoTrades(c: Config, bars: seq<Bar>)
    requires Tradable(c, bars)
    requires forall i :: 0 <= i < |bars| ==> !EntrySignal(bars[i])
    ensures Run(c, bars).trades == [] && !Run(c, bars).holding && Run(c, bars).cash == c.initialCash
    ensures forall i :: 0 <= i < |bars| ==> Run(c, bars).curve[i].value == c.initialCash
  {
    if |bars| > 0 {
      var prefix := bars[..|bars| - 1];
      NoEntryNoTrades(c, prefix);
      var before := Run(c, prefix);
      assert Run(c, bars) == Step(c, before, bars[|bars| - 1]);
    }
  }

  /** A whole simulation without an entry signal: empty trade log, curve constant at the initial cash. */
  lemma NoEntryFlatCurve(c: Config, bars: seq<Bar>)
    requires Tradable(c, bars) && |bars| > 0
    requires forall i :: 0 <= i < |bars| ==> !EntrySignal(bars[i])
    ensures Simulate(c, bars).value.trades == []
    ensures forall i :: 0 <= i < |bars| + 1 ==> Simulate(c, bars).value.curve[i].value == c.initialCash
  {
    NoEntryNoTrades(c, bars);
  }

  /** After the simulation every BUY is immediately followed by the SELL that closes the same shares. */
  lemma EveryBuyIsClosed(c: Config, bars: seq<Bar>)
    requires Tradable(c, bars) && |bars| > 0
    ensures var t := Simulate(c, bars).value.trades;
      forall i :: 0 <= i < |t| && t[i].side == Buy ==>
        i + 1 < |t| && t[i + 1].side == Sell && t[i + 1].shares == t[i].shares
  {
    var t := Simulate(c, bars).value.trades;
    forall i | 0 <= i < |t| && t[i].side == Buy
      ensures i + 1 < |t| && t[i + 1].side == Sell && t[i + 1].shares == t[i].shares
    {
      assert i % 2 == 0;
      assert t[i + 1].side == Sell;
    }
  }

  /** Half of 1000 cash at a close of 100, without slippage or fees, buys 5 shares and leaves 500. */
  lemma HalfAllocationExample()
    ensures var c := Config(1000.0, 0.5, 0.0, 0.0);
      var r := Step(c, Initial(c), Bar("2024-01-02", 100.0, 20.0, 110.0, 120.0));
      r.shares == 5 && r.cash == 500.0 && r.holding
      && r.trades == [Trade("2024-01-02", Buy, 100.0, 5, 1000.0)]
  {
  }

  /** Sizing ignores the fee: going all-in at an exact multiple of the price leaves the cash negative. */
  lemma FeeCanOverdraw()
    ensures var c := Defaults.(slippage := 0.0);
      Step(c, Initial(c), Bar("2024-01-02", 100.0, 20.0, 110.0, 120.0)).cash == -50.0
  {
  }
}

=== FILE: strategy_gen.dfy ===
/**
 * The two static helpers of `StrategyGenAgent`: cutting the JSON out of a fenced code block in a
 * model reply, and listing the top-level strategy fields a parsed reply lacks.
 */
module StrategyGen {
  import opened Wrappers

  const OpenFence := "```json"
  const Fence := "```"

  /** `pat` occurs in `text` starting at index i. */
  predicate OccursAt(text: string, pat: string, i: int) {
    0 <= i && i + |pat| <= |text| && text[i..i + |pat|] == pat
  }

  /** i is the first occurrence of `pat` in `text` at or after `start`. */
  ghost predicate FirstAt(text: string, pat: string, start: nat, i: int) {
    start <= i && OccursAt(text, pat, i) && forall j :: start <= j < i ==> !OccursAt(text, pat, j)
  }

  /** i is the first occurrence of `pat` in `text` strictly after index `after`. */
  ghost predicate NextAfter(text: string, pat: string, after: int, i: int) {
    after < i && OccursAt(text, pat, i) && forall j :: after < j < i ==> !OccursAt(text, pat, j)
  }

  /** Python's `text.find(pat, start)` for a non-negative start: the first match, or -1. */
  function Find(text: string, pat: string, start: nat): (r: int)
    ensures r == -1 <==> forall j :: start <= j ==> !OccursAt(text, pat, j)
    ensures r != -1 ==> FirstAt(text, pat, start, r)
    decreases |text| - start
  {
    if start + |pat| > |text| then -1
    else if OccursAt(text, pat, start) then start
    else Find(text, pat, start + 1)
  }

  /** Python's `str.isspace` for one character: the characters `str.strip()` removes. */
  predicate IsSpace(ch: char) {
    || '\U{0009}' <= ch <= '\U{000D}'
    || '\U{001C}' <= ch <= '\U{0020}'
    || ch == '\U{0085}' || ch == '\U{00A0}' || ch == '\U{1680}'
    || '\U{2000}' <= ch <= '\U{200A}'
    || ch == '\U{2028}' || ch == '\U{2029}' || ch == '\U{202F}' || ch == '\U{205F}' || ch == '\U{3000}'
  }

  /** The first index at or after i that holds no whitespace, or |s|. */
  function SkipLeading(s: string, i: nat): (j: nat)
    requires i <= |s|
    ensures i <= j <= |s|
    ensures forall k :: i <= k < j ==> IsSpace(s[k])
    ensures j < |s| ==> !IsSpace(s[j])
    decreases |s| - i
  {
    if i == |s| || !IsSpace(s[i]) then i else SkipLeading(s, i + 1)
  }

  /** One past the last index below hi, and not below lo, that holds no whitespace; lo if none does. */
  function SkipTrailing(s: string, lo: nat, hi: nat): (j: nat)
    requires lo <= hi <= |s|
    ensures lo <= j <= hi
    ensures forall k :: j <= k < hi ==> IsSpace(s[k])
    ensures j > lo ==> !IsSpace(s[j - 1])
    decreases hi - lo
  {
    if hi == lo || !IsSpace(s[hi - 1]) then hi else SkipTrailing(s, lo, hi - 1)
  }

  /** `str.strip()`: the infix left after removing whitespace from both ends. */
  function Strip(s: string): (r: string)
    ensures |r| > 0 ==> !IsSpace(r[0]) && !IsSpace(r[|r| - 1])
    ensures exists lo, hi ::
      && 0 <= lo <= hi <= |s| && r == s[lo..hi]
      && (forall k :: 0 <= k < lo ==> IsSpace(s[k]))
      && (forall k :: hi <= k < |s| ==> IsSpace(s[k]))
  {
    var lo := SkipLeading(s, 0);
    var hi := SkipTrailing(s, lo, |s|);
    assert lo < |s| ==> hi > lo;
    s[lo..hi]
  }

  /** The opening fence itself holds no closing fence after its first character. */
  lemma NoFenceInsideTag(text: string, s: nat)
    requires OccursAt(text, OpenFence, s)
    ensures forall j :: s < j < s + |OpenFence| ==> !OccursAt(text, Fence, j)
  {
    assert text[s..s + 7] == OpenFence;
    assert text[s + 3] == 'j' && text[s + 4] == 's' && text[s + 5] == 'o' && text[s + 6] == 'n';
  }

  /** The raised `ValueError("JSON code block not found")`. */
  datatype ExtractError = CodeBlockNotFound

  /**
   * `extract_json_from_code_block`: the stripped text between the first "```json" and the next
   * "```" after it; fails when either fence is missing.
   */
  function ExtractJson(text: string): (r: Result<string, ExtractError>)
    ensures r.Failure? <==>
      (forall i :: 0 <= i ==> !OccursAt(text, OpenFence, i))
      || (exists s :: FirstAt(text, OpenFence, 0, s) && forall j :: s < j ==> !OccursAt(text, Fence, j))
    ensures r.Success? ==> exists s, e ::
      && FirstAt(text, OpenFence, 0, s)
      && NextAfter(text, Fence, s, e)
      && s + |OpenFence| <= e
      && r.value == Strip(text[s + |OpenFence|..e])
  {
    var start := Find(text, OpenFence, 0);
    var end := Find(text, Fence, if start == -1 then 0 else start + 1);
    if start == -1 || end == -1 then
      Failure(CodeBlockNotFound)
    else
      NoFenceInsideTag(text, start);
      assert FirstAt(text, OpenFence, 0, start) && NextAfter(text, Fence, start, end);
      Success(Strip(text[start + |OpenFence|..end]))
  }

  /** The top-level keys a strategy must carry, in the order they are reported. */
  const RequiredFields: seq<string> :=
    ["strategy_name", "symbol", "indicators", "entry_criteria", "exit_criteria", "timeframe"]

  predicate Distinct(xs: seq<string>) {
    forall i, j :: 0 <= i < j < |xs| ==> xs[i] != xs[j]
  }

  /** Index of the first occurrence of x in xs. */
  function Position(xs: seq<string>, x: string): (k: nat)
    requires x in xs
    ensures k < |xs| && xs[k] == x
    decreases |xs|
  {
    if xs[0] == x then 0 else 1 + Position(xs[1..], x)
  }

  /** The entries of `required` that are not keys of `parsed`, in their order in `required`. */
  function Missing<V>(required: seq<string>, parsed: map<string, V>): (r: seq<string>)
    requires Distinct(required)
    ensures |r| <= |required|
    ensures forall f :: f in r <==> f in required && f !in parsed
    ensures forall i, j :: 0 <= i < j < |r| ==> Position(required, r[i]) < Position(required, r[j])
    decreases |required|
  {
    if |required| == 0 then []
    else
      var rest := Missing(required[1..], parsed);
      assert forall f :: f in rest ==> f in required[1..] && f != required[0];
      assert forall f :: f in required[1..] ==> Position(required, f) == 1 + Position(required[1..], f);
      if required[0] in parsed then rest else [required[0]] + rest
  }

  /** `get_missing_fields`: which of the six required keys `parsed` lacks, in the fixed order. */
  function GetMissingFields<V>(parsed: map<string, V>): (r: seq<string>)
    ensures forall f :: f in r <==> f in RequiredFields && f !in parsed
    ensures forall i, j :: 0 <= i < j < |r| ==> Position(RequiredFields, r[i]) < Position(RequiredFields, r[j])
  {
    RequiredFieldsDistinct();
    Missing(RequiredFields, parsed)
  }

  /** At most the six required keys are reported, and none exactly when all six are present. */
  lemma MissingFieldsBounds<V>(parsed: map<string, V>)
    ensures |GetMissingFields(parsed)| <= 6
    ensures GetMissingFields(parsed) == [] <==> forall f :: f in RequiredFields ==> f in parsed
  {
    var r := GetMissingFields(parsed);
    RequiredFieldsDistinct();
    assert |r| <= |RequiredFields| == 6;
    assert r != [] ==> r[0] in r;
  }

  lemma RequiredFieldsDistinct()
    ensures Distinct(RequiredFields)
  {
    var f := RequiredFields;
    assert |f[0]| == 13 && |f[1]| == 6 && |f[2]| == 10 && |f[3]| == 14 && |f[4]| == 13 && |f[5]| == 9;
    assert f[0][0] == 's' && f[4][0] == 'e';
  }
}

=== FILE: wrappers.dfy ===
/** Failure-carrying datatypes shared by the modules of the model. */
module Wrappers {

  /** A value that may be absent: a missing dictionary key, Python's `None`, or pandas' NaN. */
  datatype Option<+T> = None | Some(value: T) {

    /** The carried value, or `default` when there is none (Python's `dict.get(key, default)`). */
    function GetOr(default: T): T {
      match this
      case Some(v) => v
      case None => default
    }
  }

  /** The outcome of an operation that raises in the source: `Failure` stands for the exception. */
  datatype Result<+T, +E> = Success(value: T) | Failure(error: E)
}
